=== FILE: README.md ===
# VP-Simulation inspector and picker, modelled in Dafny

VP-Simulation is a browser tool for planning videoprojector installations. The user places nodes in a 3D scene, moves them with a transform gizmo, and edits them in an inspector panel. This project models three pieces of it as immutable records over `real`s with pure step functions:

- **The per-node inspector panel** (`js/UI/NodeUI.js`), in modules `NodeUI` and `Drag`:
  - the numbers the panel shows when it is built: X is the scene x, Y the *negated* scene depth, Z the scene height, each scaled by the current unit and rounded to two decimals, and rotations in whole degrees;
  - the scrubbable fields: press, drag and release, with one document-wide move slot and one up slot, a sensitivity of a hundredth per pixel for positions and one degree per pixel for rotations;
  - the dispatch from a field to exactly one of the node's six transform fields, and the sync of the node's mesh and proxy;
  - the collapse toggle, the eye icon, `updatePosition` and `dispose`.
- **The pointer picker** (`js/main.js`), in module `App`: pointer down and up, with a click detaching the gizmo; pointer-move normalisation; the nearest pickable hit among the camera meshes followed by the dummy meshes; re-attaching only to a different object; `showY` set from the mesh name; the `objectChange` refresh of every panel; and `resetCams`.
- **The fixed tables** (`js/data.js`), in module `Data`: the two display units and the camera type.

Supporting modules:

- `Rounding` defines `Math.round` (round half up) and the two-decimal rounding `Math.round(v*100)/100`.
- `Scene` holds the node's transform, its mesh and its proxy camera.
- `RoundTrip` relates what a panel shows to what a press followed by a move with no horizontal movement on it writes back (a press released without any move writes nothing: `Drag.ClickChangesNothing`).

The model follows the code as written, including its Y-axis asymmetry:

- a freshly built panel shows `-zPos` in the Y field (js/UI/NodeUI.js:38);
- a drag on Y writes the displayed value, divided by the unit, into `zPos` unnegated (js/UI/NodeUI.js:151);
- `updatePosition` shows `z` unnegated (js/UI/NodeUI.js:249).

The round-trip claims below hold when the scaled coordinate has at most two decimals. Otherwise the written value snaps to the shown hundredth (`RoundTrip.PositionReadBackBounds`). For example, an x of 0.123 m comes back as 0.12, and a depth of 0.123 m comes back as -0.12.

- A press followed by a move with no horizontal movement, on the Y field of a freshly built panel, mirrors the node's depth. `RoundTrip.BuildRoundTripYNegates` proves this, and `RoundTrip.BuildRoundTripYBroken` works through a concrete case.
- Once `updatePosition` has refreshed the panel, the same gesture keeps the depth (`RoundTrip.UpdateThenZeroDragY`).
- On a freshly built panel, the same gesture on X or Z leaves the whole transform as it was (`RoundTrip.BuildRoundTripX`, `RoundTrip.BuildRoundTripZ`).

In metres, dragging Y 200 pixels to the right from a shown -0.5 shows 1.5 and writes +1.5 into `zPos` (js/UI/NodeUI.js:151). In feet it writes 1.5 / 3.28084. Undoing the display's negation would write -1.5 instead (`RoundTrip.DragYScenario`).

## Model

| member | source | states |
|---|---|---|
| Data.UnitOf | js/data.js:21-32 | every entry of the units table has a positive scale, so the division a drag performs is defined; metres is the entry labelled "m"; the labels are "m"/"m²" for metres and "ft"/"sqft" for feet |
| Data.Scale | js/data.js:21-32 | the selected unit's scale is positive, and it is exactly 1 for metres and only for metres |
| Data.LabelsIdentifyUnit | js/data.js:21-32 | the label 'm'/'ft' and the squared label 'm²'/'sqft' each tell the two units apart |
| Data.CameraTypesWellFormed | js/data.js:1-11 | the camera type table is non-empty; each entry has 0 < rangeNear < rangeFar and its id equals its index; one entry is checked by default |
| Rounding.Round | js/UI/NodeUI.js:47-53 | Math.round returns the integer n with n - 1/2 <= x < n + 1/2 |
| Rounding.RoundUnique | js/UI/NodeUI.js:47-53 | that integer is unique, so a whole number rounds to itself |
| Rounding.Round2 | js/UI/NodeUI.js:35-41 | two-decimal rounding yields a value on the hundredths grid, within half a hundredth of its input (ties round up) |
| Rounding.Round2Fixes | js/UI/NodeUI.js:126 | a value already on the hundredths grid is shown unchanged |
| Rounding.Round2Idempotent | js/UI/NodeUI.js:126 | re-rounding a shown number does not change it |
| Rounding.Round2Negate | js/UI/NodeUI.js:38 | on grid values, rounding commutes with negation, and negation stays on the grid |
| NodeUI.Reading | js/UI/NodeUI.js:35-53 | a position field shows a hundredths-grid number within 0.005 of x·u, -z·u or y·u; a rotation field shows a whole number of degrees within 1/2 of rot·180/π |
| NodeUI.Build | js/UI/NodeUI.js:35-53 | the built panel shows every field's reading, underlines nothing, has its details expanded with the minus glyph, and shows the eye open |
| NodeUI.HideUICam | js/UI/NodeUI.js:219-227 | a click flips whether the details are hidden, leaves the glyph consistent with the new state, and changes nothing else |
| NodeUI.HideUICamInvolution | js/UI/NodeUI.js:219-227 | two clicks restore a consistent panel exactly |
| NodeUI.ChangeVisibility | js/UI/NodeUI.js:240-244 | the eye is open iff the node is visible; no other part of the panel changes |
| NodeUI.ChangeVisibilityLastWins | js/UI/NodeUI.js:240-244 | only the last visibility pushed to the panel matters |
| NodeUI.UpdatePosition | js/UI/NodeUI.js:246-251 | X shows x·u, Y shows z·u with no negation, Z shows y·u, each on the hundredths grid within 0.005; rotations, underlines and both icons are kept |
| NodeUI.UpdatePositionLastWins | js/UI/NodeUI.js:246-251 | a refresh overrides every earlier refresh, whatever unit either used |
| NodeUI.Create | js/UI/NodeUI.js:7-17 | constructing adds exactly one panel, under the node's id, showing the build readings; existing panels are untouched |
| NodeUI.Dispose | js/UI/NodeUI.js:253-256 | dispose removes exactly that node's panel and keeps every other panel |
| NodeUI.UpdatePositionOf | js/UI/NodeUI.js:246-251 | a refresh addressed by id fails iff the node has no panel; otherwise it refreshes that panel alone |
| NodeUI.NoUpdateAfterDispose | js/UI/NodeUI.js:253-256 | after dispose, no refresh can reach the panel again |
| Drag.Fresh | js/UI/NodeUI.js:81-87 | after construction each field's drag value is the number it displays, with a pointer origin of 0 |
| Drag.Sensitivity | js/UI/NodeUI.js:111-123 | the per-pixel factor is a hundredth for position fields and 1 (a degree) for rotation fields |
| Drag.Target | js/UI/NodeUI.js:128-192 | the full dispatch table: x-pos writes xPos, y-pos writes the depth zPos, z-pos writes the height yPos, and each rotation field writes the rotation about its own axis |
| Drag.FieldFor | js/UI/NodeUI.js:128-192 | every node field is written by some panel field |
| Drag.TargetInjective | js/UI/NodeUI.js:128-192 | distinct panel fields write distinct node fields; with FieldFor, the dispatch is a bijection |
| Drag.ToScene | js/UI/NodeUI.js:134-140 | a dragged position times the unit's scale is the displayed value; a dragged rotation times 180 is the displayed degrees times π |
| Drag.Apply | js/UI/NodeUI.js:128-192 | a drag sets exactly the targeted node field and keeps the other five; a position edit puts the mesh at the node's position and moves the proxy on that axis only; a rotation edit turns the proxy about that axis only, with the mounting offset on x and the sign flip on y |
| Drag.ApplyKeepsSynced | js/UI/NodeUI.js:133-185 | a field edit keeps the mesh, the proxy position and the proxy rotation in step with the node's transform |
| Drag.MouseDown | js/UI/NodeUI.js:90-101 | a press re-seeds the field's value from its display, records the pointer x, underlines it, and puts its handlers into both document slots; other fields, the node, the displayed numbers, the collapse state and both icons are untouched |
| Drag.ElementDrag | js/UI/NodeUI.js:103-127 | a move adds the pointer's x movement times the sensitivity, shows the new value to two decimals, and hands it to the node; other fields keep their bindings and displays, and the slots, underlines, collapse state and icons are kept |
| Drag.CloseDrag | js/UI/NodeUI.js:195-199 | a release drops that field's underline and empties both document slots; the node, the bindings, the displayed numbers, the collapse state and both icons are kept |
| Drag.DocMouseMove | js/UI/NodeUI.js:99-100 | a document move with an empty move slot changes nothing; the slots are never changed by a move |
| Drag.DocMouseUp | js/UI/NodeUI.js:195-199 | a document release with an empty up slot changes nothing; otherwise it ends the drag without changing the node or any binding |
| Drag.EventsKeepSlotsAgree | js/UI/NodeUI.js:99-100 | press, move and release keep the move slot and the up slot holding the same field |
| Drag.MoveTouchesOneField | js/UI/NodeUI.js:125-192 | a move during a drag changes only the dragged field's display and only its target node field |
| Drag.AdvanceTwice | js/UI/NodeUI.js:108-125 | two consecutive pointer steps of a binding add up to one step between their ends |
| Drag.MoveStep | js/UI/NodeUI.js:103-125 | one document move advances the dragged binding to the new pointer x and keeps the slots |
| Drag.MovesTelescope | js/UI/NodeUI.js:108-125 | over any sequence of moves in a drag, the value depends only on the last pointer x: start value + (last x - origin) × sensitivity |
| Drag.ClickChangesNothing | js/UI/NodeUI.js:90-101 | a press followed by a release without a move changes no node field and no displayed number, and ends the drag |
| Drag.SecondDragReplacesFirst | js/UI/NodeUI.js:99-100 | a press on g during f's drag leaves only g's handlers installed; after the release no handler remains and a move is a no-op; f keeps its stale underline |
| RoundTrip.ZeroDragWritesShown | js/UI/NodeUI.js:90-134 | a press and a zero-length move write the displayed number, in scene units, into the field's node field, and keep the other five |
| RoundTrip.ScaledReadBack | js/UI/NodeUI.js:134 | dividing a scaled position back by the positive scale restores it |
| RoundTrip.BuildThenZeroDrag | js/UI/NodeUI.js:35-53 | on a freshly built panel, a zero-length drag writes the field's build-time reading back in scene units |
| RoundTrip.PositionReadBackBounds | js/UI/NodeUI.js:35-41 | a position reading written back is within the display rounding of the exact display value |
| RoundTrip.ReadBackX | js/UI/NodeUI.js:35 | the X reading written back restores x whenever x·u is on the hundredths grid |
| RoundTrip.ReadBackZ | js/UI/NodeUI.js:41 | the Z reading written back restores the height whenever y·u is on the hundredths grid |
| RoundTrip.ReadBackYNegates | js/UI/NodeUI.js:38 | the Y reading written back is the negated depth whenever z·u is on the hundredths grid |
| RoundTrip.BuildRoundTripX | js/UI/NodeUI.js:134 | a press followed by a move with no horizontal movement on X of a built panel leaves the whole transform unchanged when x·u is on grid |
| RoundTrip.BuildRoundTripZ | js/UI/NodeUI.js:175 | a press followed by a move with no horizontal movement on Z of a built panel leaves the whole transform unchanged when y·u is on grid |
| RoundTrip.BuildRoundTripYNegates | js/UI/NodeUI.js:151 | a press followed by a move with no horizontal movement on Y of a built panel mirrors an on-grid depth to -zPos |
| RoundTrip.BuildRoundTripYBroken | js/UI/NodeUI.js:38 | concretely, a depth of 0.5 m comes back as -0.5 |
| RoundTrip.UpdateShowsDepth | js/UI/NodeUI.js:249 | after a refresh, Y shows an on-grid scaled depth exactly and unnegated |
| RoundTrip.BuildShowsNegatedDepth | js/UI/NodeUI.js:38 | a built panel shows an on-grid scaled depth exactly but negated |
| RoundTrip.ZeroDragYKeepsShownDepth | js/UI/NodeUI.js:151 | a zero-length drag on a Y field showing z·u sets the depth to z |
| RoundTrip.UpdateThenZeroDragY | js/UI/NodeUI.js:249 | after updatePosition, a press followed by a move with no horizontal movement on Y keeps an on-grid depth |
| RoundTrip.RotationReadBack | js/UI/NodeUI.js:47-53 | a rotation reading written back is within half a degree of the rotation, and exact iff the rotation is a whole number of degrees |
| RoundTrip.DragYScenario | js/UI/NodeUI.js:103-153 | a node at (1, height 2, depth 0.5) in metres shows X 1, Y -0.5, Z 2; a 200-pixel drag on Y shows 1.5, sets the depth to +1.5, and moves the mesh to (1, 2, 1.5) |
| RoundTrip.UnitChangeScenario | js/UI/NodeUI.js:246-251 | a height of 2 is shown as 2 in metres and as 6.56 in feet |
| App.OnPointerDown | js/main.js:106-110 | pointer-down records the down position and touches nothing else |
| App.OnPointerUp | js/main.js:112-117 | pointer-up records the up position and detaches the gizmo iff it equals the down position; otherwise the attachment stays |
| App.ClickDetachesDragKeeps | js/main.js:112-117 | a press and release at one spot always detach; at different spots, the held object is kept |
| App.Normalise | js/main.js:121-122 | the left edge maps to -1, the right edge to 1, the header's bottom to +1, the viewport's bottom to -1 |
| App.NormaliseRoundTrip | js/main.js:121-122 | normalisation is a bijection between client and device coordinates |
| App.Intersect | js/main.js:126-128 | the hits are exactly the pickable meshes on the ray, and no more than the ray meets |
| App.IntersectNearest | js/main.js:128-131 | the first hit is the nearest pickable mesh: everything the ray meets before it is unpickable |
| App.ShowYFor | js/main.js:134-135 | attaching a "Dummy" hides the Y handle, a "Camera" shows it, and any other name leaves it as it was |
| App.Pickable | js/main.js:126 | the pickable list holds exactly the camera meshes and the dummy meshes |
| App.OnPointerMove | js/main.js:119-138 | with no hit the attachment and showY are kept; with hits the gizmo ends up on the nearest one; a change of attachment is always to a pickable mesh and sets showY from its name |
| App.OnPointerMoveIdempotent | js/main.js:130-133 | repeating an identical move changes nothing, because the held object is not re-attached |
| App.ResetCams | js/main.js:154-164 | the camera list and the camera mesh list end empty; the dummy meshes are untouched |
| App.ResetCamsLeavesDummiesPickable | js/main.js:161-163 | after a reset a move can only attach a dummy mesh; the gizmo may still hold a removed camera mesh |
| App.RefreshAll | js/main.js:85-90 | every object keeps its transform; its panel's X, Y and Z show its own x, depth and height, scaled and rounded to hundredths; rotations, underlines and icons are kept |
| App.ObjectChange | js/main.js:85-90 | after the gizmo moves an object, every camera panel and every dummy panel shows its own object's position in `updatePosition`'s convention (Y the unnegated depth); no transform and no rotation reading changes |

## Left out

- HTML building, element lookup and CSS classes. A panel is a record of six displayed reals, the underline flags, the collapse flag and the two icons. `parseFloat` of a displayed number reads that number back exactly.
- Rendering and the Three.js machinery: the renderer, OrbitControls, TransformControls internals, `animate`/`render` and resize handling. These are foreign, side-effecting library calls.
- Raycast geometry. `App.OnPointerMove` takes the ray as an oracle from the normalised pointer to the meshes the ray passes, nearest first.
- Floating point. All numbers are reals, and π is the literal 3.141592653589793. Math.round is round half up. Float rounding error in `value / unit` and `value * (π/180)` is not modelled.
- `Node.DEFAULT_NODE_ROTATION_X` is an uninterpreted constant. js/scene/objects/sensors/Node.js is not part of this model.
- The eye-icon click handler (`changeVisibilityofCam`, js/UI/NodeUI.js:229-233) calls into `Node.changeVisibility` and `updateFrustumIcon`, which are not part of this model. The panel side it ends in is `NodeUI.ChangeVisibility`.
- `changeFar` (js/UI/NodeUI.js:235-238) writes to a `far<id>` element that this panel never builds.
- Commented-out and unfinished code: the click-to-type input, the `rotateOnWorldAxis` variants, and the `dragged` flag, which nothing reads.
- The debug `onKeyDown` handler (js/main.js:167 onwards).
- Field ids with an unknown axis or kind are not modelled. Field ids form a closed datatype, so the `default:` branches of the dispatch switches cannot be reached.
- Drag.Inspector models one node's panel. The document slots are shared by all panels, so a press on another node's panel also overwrites them. The model shows this within one panel (`Drag.SecondDragReplacesFirst`).
- App.OnPointerUp: the zero-distance test `distanceTo(...) === 0` is written as equality of the two points, which is equivalent over reals. `onPointerUp` declares no parameter and reads the implicit global `event` (js/main.js:112-114). The model passes its `clientX`/`clientY` as parameters, just as it does for the handlers that receive the event.
- App.OnPointerMove, App.Normalise and App.Denormalise require a viewport of positive width and height. With a zero size the browser computes infinities, which reals cannot express.
- App.ResetCams: the removal of elements with class `cameraUI` is left out. Panels carry class `nodeUI`, so that loop removes nothing. `Camera.remove()` lives in js/Camera.js (imported at js/main.js:6), which is not part of this model.
- App.ObjectChange: the per-object `updatePosition` call is made inside js/Camera.js and js/Dummy.js (imported at js/main.js:6-7), which are not part of this model. The model assumes each object calls `updatePosition(xPos, yPos, zPos, unit.value)` with its own position and the current unit. It refreshes the panel directly from the object's transform on that assumption. The claim that Y shows the depth depends on this argument order.
- NodeUI.Create requires that the node has no panel yet. The browser would append a second element with the same id, and lookups by id would then find only the first.
- NodeUI.Dispose requires that the panel exists, because a second call throws on the missing element.

=== FILE: app.dfy ===
/** The pointer picking and gizmo selection of js/main.js, with the scene
    machinery set aside: the raycaster is an oracle that lists the meshes a
    ray through a viewport point passes, nearest first; the transform gizmo
    is reduced to the object it holds and its `showY` flag. Also the
    `objectChange` refresh of every panel and `resetCams`. */
module App {
  import opened Optional
  import opened Rounding
  import opened Scene
  import opened NodeUI

  datatype Point = Point(x: real, y: real)

  /** A pickable mesh: its object identity and its `name`. */
  datatype Mesh = Mesh(ref: nat, name: string)

  /** The pointer positions recorded on down and up, the normalised pointer
      of the last move, the object the gizmo is attached to, and `showY`. */
  datatype Picker = Picker(down: Point, up: Point, pointer: Point, attached: Option<Mesh>, showY: bool)

  /** The sizes `onPointerMove` reads: the viewport's offsetWidth and
      offsetHeight and the header's offsetHeight. */
  datatype Viewport = Viewport(width: real, height: real, header: real)

  predicate ValidViewport(v: Viewport)
  {
    v.width > 0.0 && v.height > 0.0
  }

  /** `onPointerDown`: records where the button went down, nothing else. */
  function OnPointerDown(s: Picker, clientX: real, clientY: real): (r: Picker)
    ensures r.down == Point(clientX, clientY)
    ensures r.up == s.up && r.pointer == s.pointer
    ensures r.attached == s.attached && r.showY == s.showY
  {
    s.(down := Point(clientX, clientY))
  }

  /** `onPointerUp`: records where the button came up and detaches the
      gizmo if the pointer did not move in between (a click rather than a
      camera drag); otherwise the attachment stays. The distance of two
      points is zero exactly when they coincide, so the distance test is
      written as an equality. */
  function OnPointerUp(s: Picker, clientX: real, clientY: real): (r: Picker)
    ensures r.up == Point(clientX, clientY)
    ensures r.attached == if s.down == r.up then None else s.attached
    ensures r.down == s.down && r.pointer == s.pointer && r.showY == s.showY
  {
    var up := Point(clientX, clientY);
    if s.down == up then s.(up := up, attached := None) else s.(up := up)
  }

  /** Dividing a product by one of its non-zero factors gives the other. */
  lemma DivCancel(a: real, w: real, q: real)
    requires w != 0.0 && q == a * w
    ensures q / w == a
  {
  }

  /** A press and release at one spot detaches the gizmo; a press and
      release at different spots (an orbit drag) keeps what it holds. */
  lemma ClickDetachesDragKeeps(s: Picker, x0: real, y0: real, x1: real, y1: real)
    ensures OnPointerUp(OnPointerDown(s, x0, y0), x0, y0).attached == None
    ensures (x0, y0) != (x1, y1) ==> OnPointerUp(OnPointerDown(s, x0, y0), x1, y1).attached == s.attached
  {
  }

  /** The pointer in normalised device coordinates: x from -1 at the left
      edge to 1 at the right, y from 1 at the bottom of the header down to
      -1 at the bottom of the viewport. */
  function Normalise(clientX: real, clientY: real, v: Viewport): (p: Point)
    requires ValidViewport(v)
    ensures clientX == 0.0 ==> p.x == -1.0
    ensures clientX == v.width ==> p.x == 1.0
    ensures clientY == v.header ==> p.y == 1.0
    ensures clientY == v.header + v.height ==> p.y == -1.0
  {
    DivCancel(1.0, v.width, v.width);
    DivCancel(1.0, v.height, v.height);
    Point((clientX / v.width) * 2.0 - 1.0, -((clientY - v.header) / v.height) * 2.0 + 1.0)
  }

  /** The client position a normalised point comes from. */
  function Denormalise(p: Point, v: Viewport): Point
    requires ValidViewport(v)
  {
    Point((p.x + 1.0) / 2.0 * v.width, v.header + (1.0 - p.y) / 2.0 * v.height)
  }

  /** Normalisation loses nothing: it and `Denormalise` undo each other. */
  lemma NormaliseRoundTrip(clientX: real, clientY: real, p: Point, v: Viewport)
    requires ValidViewport(v)
    ensures Denormalise(Normalise(clientX, clientY, v), v) == Point(clientX, clientY)
    ensures Normalise(Denormalise(p, v).x, Denormalise(p, v).y, v) == p
  {
    var q := Denormalise(p, v);
    DivCancel((p.x + 1.0) / 2.0, v.width, q.x);
    DivCancel((1.0 - p.y) / 2.0, v.height, q.y - v.header);
    var n := Normalise(clientX, clientY, v);
    assert (clientX / v.width) * v.width == clientX;
    assert ((clientY - v.header) / v.height) * v.height == clientY - v.header;
    assert (n.x + 1.0) / 2.0 == clientX / v.width;
    assert (1.0 - n.y) / 2.0 == (clientY - v.header) / v.height;
  }

  /** `intersectObjects(meshes, false)`: the meshes on the ray, in the ray's
      nearest-first order, that are in the pickable list. */
  function Intersect(ray: seq<Mesh>, pickable: seq<Mesh>): (hits: seq<Mesh>)
    ensures |hits| <= |ray|
    ensures forall i :: 0 <= i < |hits| ==> hits[i] in pickable && hits[i] in ray
    ensures forall m :: m in ray && m in pickable ==> m in hits
  {
    if |ray| == 0 then []
    else if ray[0] in pickable then [ray[0]] + Intersect(ray[1..], pickable)
    else Intersect(ray[1..], pickable)
  }

  /** The first hit is the nearest pickable mesh on the ray: every mesh the
      ray meets before it is not pickable. */
  lemma {:induction false} IntersectNearest(ray: seq<Mesh>, pickable: seq<Mesh>)
    requires |Intersect(ray, pickable)| > 0
    ensures exists i :: 0 <= i < |ray| && ray[i] == Intersect(ray, pickable)[0] &&
                        forall j :: 0 <= j < i ==> ray[j] !in pickable
  {
    if ray[0] in pickable {
      assert ray[0] == Intersect(ray, pickable)[0];
    } else {
      var rest := ray[1..];
      assert Intersect(ray, pickable) == Intersect(rest, pickable);
      IntersectNearest(rest, pickable);
      var i :| 0 <= i < |rest| && rest[i] == Intersect(rest, pickable)[0]
        && forall j :: 0 <= j < i ==> rest[j] !in pickable;
      assert ray[i + 1] == rest[i];
      forall j | 0 <= j < i + 1
        ensures ray[j] !in pickable
      {
        if j > 0 {
          assert ray[j] == rest[j - 1];
        }
      }
    }
  }

  /** `showY` after an attach: hidden for a Dummy, shown for a Camera,
      unchanged for any other name. */
  function ShowYFor(name: string, showY: bool): (r: bool)
    ensures name == "Dummy" ==> !r
    ensures name == "Camera" ==> r
    ensures name != "Dummy" && name != "Camera" ==> r == showY
  {
    var afterDummy := if name == "Dummy" then false else showY;
    if name == "Camera" then true else afterDummy
  }

  /** The pickable list: the camera meshes followed by the dummy meshes. */
  function Pickable(camMeshes: seq<Mesh>, dummiesMeshes: seq<Mesh>): (all: seq<Mesh>)
    ensures forall m :: m in all <==> m in camMeshes || m in dummiesMeshes
    ensures |all| == |camMeshes| + |dummiesMeshes|
  {
    camMeshes + dummiesMeshes
  }

  /** `onPointerMove`: normalises the pointer, casts the ray (the oracle
      `ray` lists what it passes, nearest first), and attaches the gizmo to
      the nearest pickable hit unless it already holds it, deriving `showY`
      from the hit's name. No hit, or the held object, changes nothing but
      the recorded pointer. */
  function OnPointerMove(s: Picker, clientX: real, clientY: real, v: Viewport,
                         camMeshes: seq<Mesh>, dummiesMeshes: seq<Mesh>,
                         ray: Point -> seq<Mesh>): (r: Picker)
    requires ValidViewport(v)
    ensures r.pointer == Normalise(clientX, clientY, v)
    ensures r.down == s.down && r.up == s.up
    ensures var hits := Intersect(ray(r.pointer), Pickable(camMeshes, dummiesMeshes));
      && (|hits| == 0 ==> r.attached == s.attached && r.showY == s.showY)
      && (|hits| > 0 ==> r.attached == Some(hits[0]))
    ensures r.attached == s.attached ==> r.showY == s.showY
    ensures r.attached != s.attached ==>
              && r.attached.Some?
              && (r.attached.value in camMeshes || r.attached.value in dummiesMeshes)
              && r.showY == ShowYFor(r.attached.value.name, s.showY)
  {
    var p := Normalise(clientX, clientY, v);
    var hits := Intersect(ray(p), Pickable(camMeshes, dummiesMeshes));
    if |hits| > 0 && s.attached != Some(hits[0]) then
      s.(pointer := p, attached := Some(hits[0]), showY := ShowYFor(hits[0].name, s.showY))
    else
      s.(pointer := p)
  }

  /** A second identical move changes nothing: the gizmo is not attached
      again to the object it already holds. */
  lemma OnPointerMoveIdempotent(s: Picker, clientX: real, clientY: real, v: Viewport,
                                camMeshes: seq<Mesh>, dummiesMeshes: seq<Mesh>,
                                ray: Point -> seq<Mesh>)
    requires ValidViewport(v)
    ensures var r := OnPointerMove(s, clientX, clientY, v, camMeshes, dummiesMeshes, ray);
      OnPointerMove(r, clientX, clientY, v, camMeshes, dummiesMeshes, ray) == r
  {
  }

  /** The scene lists `resetCams` works on: the camera objects (by id), their
      meshes, and the dummy meshes. */
  datatype Sensors = Sensors(cameras: seq<nat>, camMeshes: seq<Mesh>, dummiesMeshes: seq<Mesh>)

  /** `resetCams`: empties the camera list and the camera mesh list and
      leaves the dummy meshes alone. */
  function ResetCams(w: Sensors): (r: Sensors)
    ensures |r.cameras| == 0 && |r.camMeshes| == 0
    ensures r.dummiesMeshes == w.dummiesMeshes
  {
    w.(cameras := [], camMeshes := [])
  }

  /** After `resetCams` a move can only attach a dummy mesh; the gizmo keeps
      whatever it held before, even a camera mesh that was just removed. */
  lemma ResetCamsLeavesDummiesPickable(w: Sensors, s: Picker, clientX: real, clientY: real,
                                       v: Viewport, ray: Point -> seq<Mesh>)
    requires ValidViewport(v)
    ensures var w' := ResetCams(w);
      var r := OnPointerMove(s, clientX, clientY, v, w'.camMeshes, w'.dummiesMeshes, ray);
      r.attached == s.attached || (r.attached.Some? && r.attached.value in w.dummiesMeshes)
  {
  }

  /** A tracked object (camera or dummy) with its panel. */
  datatype Tracked = Tracked(t: Transform, panel: Panel)

  /** `after` is `before` with its panel brought up to date: the transform
      is the same, the three position fields show the object's own position
      in `updatePosition`'s convention (X the scene x, Y the unnegated depth,
      Z the height, rounded to hundredths), and nothing else on the panel changed. */
  predicate Refreshed(before: Tracked, after: Tracked, scale: real)
  {
    && after.t == before.t
    && after.panel.shown.posX == Round2(before.t.xPos * scale)
    && after.panel.shown.posY == Round2(before.t.zPos * scale)
    && after.panel.shown.posZ == Round2(before.t.yPos * scale)
    && after.panel.shown.rotX == before.panel.shown.rotX
    && after.panel.shown.rotY == before.panel.shown.rotY
    && after.panel.shown.rotZ == before.panel.shown.rotZ
    && after.panel.underlined == before.panel.underlined
    && after.panel.detailsHidden == before.panel.detailsHidden
    && after.panel.toggleIcon == before.panel.toggleIcon
    && after.panel.eyeIcon == before.panel.eyeIcon
  }

  /** Refreshes the panel of every object from the object's own position,
      in order. */
  method RefreshAll(objs: seq<Tracked>, scale: real) returns (r: seq<Tracked>)
    ensures |r| == |objs|
    ensures forall i :: 0 <= i < |r| ==> Refreshed(objs[i], r[i], scale)
  {
    r := [];
    var k := 0;
    while k < |objs|
      invariant 0 <= k <= |objs| && |r| == k
      invariant forall i :: 0 <= i < k ==> Refreshed(objs[i], r[i], scale)
    {
      var o := objs[k];
      var o' := Tracked(o.t, UpdatePosition(o.panel, o.t.xPos, o.t.yPos, o.t.zPos, scale));
      assert Refreshed(o, o', scale);
      r := r + [o'];
      k := k + 1;
    }
  }

  /** The `objectChange` listener: after the gizmo moved something, every
      camera's and then every dummy's panel shows its own object's position
      again; no transform and no rotation reading changes. */
  method ObjectChange(cameras: seq<Tracked>, dummies: seq<Tracked>, scale: real)
    returns (cameras': seq<Tracked>, dummies': seq<Tracked>)
    ensures |cameras'| == |cameras| && |dummies'| == |dummies|
    ensures forall i :: 0 <= i < |cameras'| ==> Refreshed(cameras[i], cameras'[i], scale)
    ensures forall i :: 0 <= i < |dummies'| ==> Refreshed(dummies[i], dummies'[i], scale)
  {
    cameras' := RefreshAll(cameras, scale);
    dummies' := RefreshAll(dummies, scale);
  }
}

=== FILE: data.dfy ===
/** The fixed tables of js/data.js: the display units and the camera types. */
module Data {

  /** A display unit: `value` is how many display units make one scene unit. */
  datatype Unit = Unit(value: real, labelText: string, squaredLabel: string)

  /** The keys of the `units` table. */
  datatype UnitKind = Meters | Feets

  const MetersUnit: Unit := Unit(1.0, "m", "m\U{00B2}")
  const FeetsUnit: Unit := Unit(3.28084, "ft", "sqft")

  /** Looks a unit up in the `units` table; every entry has a positive scale,
      so dividing a displayed value by it is always defined. */
  function UnitOf(k: UnitKind): (u: Unit)
    ensures u.value > 0.0
    ensures k == Meters <==> u.labelText == "m"
    ensures k == Meters ==> u.labelText == "m" && u.squaredLabel == "m\U{00B2}"
    ensures k == Feets ==> u.labelText == "ft" && u.squaredLabel == "sqft"
  {
    match k
    case Meters => MetersUnit
    case Feets => FeetsUnit
  }

  /** The scale of the unit the scene manager currently selects. */
  function Scale(k: UnitKind): (s: real)
    ensures s > 0.0
    ensures k == Meters <==> s == 1.0
  {
    UnitOf(k).value
  }

  /** The two table entries are told apart by either of their labels. */
  lemma LabelsIdentifyUnit(a: UnitKind, b: UnitKind)
    ensures UnitOf(a).labelText == UnitOf(b).labelText <==> a == b
    ensures UnitOf(a).squaredLabel == UnitOf(b).squaredLabel <==> a == b
  {
    if a != b {
      assert UnitOf(a).labelText[0] != UnitOf(b).labelText[0];
      assert UnitOf(a).squaredLabel[0] != UnitOf(b).squaredLabel[0];
    }
  }

  /** An entry of the `camerasTypes` table. */
  datatype CameraType = CameraType(
    id: nat,
    name: string,
    rangeNear: real,
    rangeFar: real,
    checkedDefault: bool,
    recommended: bool)

  const CameraTypes: seq<CameraType> :=
    [CameraType(0, "Videoprojector", 0.2, 50.0, true, true)]

  /** Every camera type has a positive near plane in front of its far plane,
      its id is its index, and one of them is checked by default. */
  lemma CameraTypesWellFormed()
    ensures |CameraTypes| > 0
    ensures forall i :: 0 <= i < |CameraTypes| ==>
      0.0 < CameraTypes[i].rangeNear < CameraTypes[i].rangeFar && CameraTypes[i].id == i
    ensures exists i :: 0 <= i < |CameraTypes| && CameraTypes[i].checkedDefault
  {
    assert CameraTypes[0].checkedDefault;
  }
}

=== FILE: drag.dfy ===
/** The scrubbable fields of js/UI/NodeUI.js (`makeElementDraggable` and its
    three handlers): each field keeps its own dragged value and last pointer
    x, and the document holds ONE mouse-move slot and ONE mouse-up slot that
    the field being dragged overwrites on mouse-down and clears on mouse-up.
    A move routes the new value to exactly one of the node's six fields and
    brings the node's mesh and proxy along. */
module Drag {
  import opened Data
  import opened Optional
  import opened Rounding
  import opened Scene
  import opened NodeUI

  /** The closure state of one field: `value` and `mousePosX`. */
  datatype Binding = Binding(value: real, lastX: real)
  {
    /** The binding after the pointer moved to x at sensitivity k. */
    function Advance(x: real, k: real): Binding
    {
      Binding(value + (x - lastX) * k, x)
    }
  }

  /** `document.onmousemove` and `document.onmouseup`: the field whose drag
      handler each slot holds, if any. */
  datatype DocSlots = DocSlots(onMove: Option<Field>, onUp: Option<Field>)

  /** One node, its panel, the six field bindings and the document slots. */
  datatype Inspector = Inspector(node: Node, panel: Panel, bindings: PerField<Binding>, slots: DocSlots)

  /** The collapse state and both icons are as in `s`: no drag handler
      touches them. */
  predicate KeepsToggles(s: Inspector, r: Inspector)
  {
    && r.panel.detailsHidden == s.panel.detailsHidden
    && r.panel.toggleIcon == s.panel.toggleIcon
    && r.panel.eyeIcon == s.panel.eyeIcon
  }

  /** No drag is in progress. */
  const NoDrag := DocSlots(None, None)

  /** The two slots always hold the same handler pair. */
  predicate SlotsAgree(s: Inspector)
  {
    s.slots.onMove == s.slots.onUp
  }

  /** The state right after the constructor: the built panel, every binding
      seeded from its displayed number with pointer x 0, and the document
      slots as they were. */
  function Fresh(n: Node, unit: UnitKind, slots: DocSlots): (s: Inspector)
    ensures s.node == n && s.slots == slots
    ensures forall f :: s.panel.shown.Get(f) == Reading(n.t, f, Scale(unit))
    ensures forall f :: s.bindings.Get(f) == Binding(s.panel.shown.Get(f), 0.0)
  {
    var p := Build(n.t, Scale(unit));
    var b := (f: Field) => Binding(p.shown.Get(f), 0.0);
    Inspector(n, p,
      PerField(b(Field(X, Pos)), b(Field(Y, Pos)), b(Field(Z, Pos)),
               b(Field(X, Rot)), b(Field(Y, Rot)), b(Field(Z, Rot))),
      slots)
  }

  /** `fac`: a hundredth of a unit per pointer pixel for positions, a degree
      per pixel for rotations. */
  function Sensitivity(k: Kind): (fac: real)
    ensures fac > 0.0
    ensures k == Pos ==> fac == 1.0 / 100.0
    ensures k == Rot ==> fac == 1.0
  {
    match k
    case Pos => 1.0 / 100.0
    case Rot => 1.0
  }

  /** The node field a panel field writes: x-pos the scene x, y-pos the
      scene depth z, z-pos the scene height y; rotations on the same axis. */
  function Target(f: Field): (g: SceneField)
    ensures f.kind == Pos <==> g in {XPos, YPos, ZPos}
    ensures f == Field(X, Pos) ==> g == XPos
    ensures f == Field(Y, Pos) ==> g == ZPos
    ensures f == Field(Z, Pos) ==> g == YPos
    ensures f == Field(X, Rot) ==> g == XRot
    ensures f == Field(Y, Rot) ==> g == YRot
    ensures f == Field(Z, Rot) ==> g == ZRot
  {
    match f
    case Field(X, Pos) => XPos
    case Field(Y, Pos) => ZPos
    case Field(Z, Pos) => YPos
    case Field(X, Rot) => XRot
    case Field(Y, Rot) => YRot
    case Field(Z, Rot) => ZRot
  }

  /** The inverse of `Target`: the panel field that writes a node field. */
  function FieldFor(g: SceneField): (f: Field)
    ensures Target(f) == g
  {
    match g
    case XPos => Field(X, Pos)
    case YPos => Field(Z, Pos)
    case ZPos => Field(Y, Pos)
    case XRot => Field(X, Rot)
    case YRot => Field(Y, Rot)
    case ZRot => Field(Z, Rot)
  }

  /** Distinct panel fields write distinct node fields, so together with
      `FieldFor` the dispatch is a one-to-one correspondence. */
  lemma TargetInjective(f: Field, g: Field)
    ensures Target(f) == Target(g) <==> f == g
    ensures FieldFor(Target(f)) == f
  {
  }

  /** The node-side value of a dragged number: a position divided by the
      unit's scale, a rotation in degrees turned into radians. */
  function ToScene(f: Field, value: real, unit: UnitKind): (v: real)
    ensures f.kind == Pos ==> v * Scale(unit) == value
    ensures f.kind == Rot ==> v * 180.0 == value * PI
  {
    if f.kind == Pos then value / Scale(unit) else value * (PI / 180.0)
  }

  /** The dispatch of `elementDrag`: sets the one node field the field id
      names; a position edit then moves the proxy along that axis and puts
      the mesh at the node's position, a rotation edit turns the proxy about
      that axis only. */
  function Apply(n: Node, f: Field, value: real, unit: UnitKind): (r: Node)
    ensures r.t.Get(Target(f)) == ToScene(f, value, unit)
    ensures forall g :: g != Target(f) ==> r.t.Get(g) == n.t.Get(g)
    ensures f.kind == Pos ==> r.meshPos == r.t.Position() && r.proxyRot == n.proxyRot
    ensures f.kind == Pos ==> AxisOf(r.proxyPos, Target(f)) == r.t.Get(Target(f))
    ensures f.kind == Rot ==> r.meshPos == n.meshPos && r.proxyPos == n.proxyPos
    ensures f.kind == Rot ==> AxisOf(r.proxyRot, Target(f)) == AxisOf(ProxyRotation(r.t), Target(f))
    ensures forall g :: AxisIndex(g) != AxisIndex(Target(f)) ==> AxisOf(r.proxyPos, g) == AxisOf(n.proxyPos, g)
    ensures forall g :: AxisIndex(g) != AxisIndex(Target(f)) ==> AxisOf(r.proxyRot, g) == AxisOf(n.proxyRot, g)
  {
    var t := n.t.With(Target(f), ToScene(f, value, unit));
    match f
    case Field(X, Pos) => n.(t := t, proxyPos := n.proxyPos.(x := t.xPos), meshPos := t.Position())
    case Field(Y, Pos) => n.(t := t, proxyPos := n.proxyPos.(z := t.zPos), meshPos := t.Position())
    case Field(Z, Pos) => n.(t := t, proxyPos := n.proxyPos.(y := t.yPos), meshPos := t.Position())
    case Field(X, Rot) => n.(t := t, proxyRot := n.proxyRot.(x := t.xRot + DefaultNodeRotationX))
    case Field(Y, Rot) => n.(t := t, proxyRot := n.proxyRot.(y := -t.yRot))
    case Field(Z, Rot) => n.(t := t, proxyRot := n.proxyRot.(z := t.zRot))
  }

  /** A field edit keeps a synchronised node synchronised. */
  lemma ApplyKeepsSynced(n: Node, f: Field, value: real, unit: UnitKind)
    requires Synced(n)
    ensures Synced(Apply(n, f, value, unit))
  {
    var r := Apply(n, f, value, unit);
    forall g ensures AxisOf(r.proxyPos, g) == AxisOf(r.t.Position(), g)
      && AxisOf(r.proxyRot, g) == AxisOf(ProxyRotation(r.t), g)
    {
      if g != Target(f) {
        assert r.t.Get(g) == n.t.Get(g);
      }
    }
    assert r.proxyPos == Vec3(AxisOf(r.proxyPos, XPos), AxisOf(r.proxyPos, YPos), AxisOf(r.proxyPos, ZPos));
    assert r.proxyRot == Vec3(AxisOf(r.proxyRot, XPos), AxisOf(r.proxyRot, YPos), AxisOf(r.proxyRot, ZPos));
  }

  /** `dragMouseDown` on field f: re-seeds the field's value from the number it
      displays, underlines it, records the pointer x and installs this
      field's handlers in both document slots, replacing whatever they held. */
  function MouseDown(s: Inspector, f: Field, clientX: real): (r: Inspector)
    ensures r.slots == DocSlots(Some(f), Some(f))
    ensures r.bindings.Get(f) == Binding(s.panel.shown.Get(f), clientX)
    ensures r.panel.underlined.Get(f)
    ensures forall g :: g != f ==> r.bindings.Get(g) == s.bindings.Get(g) && r.panel.underlined.Get(g) == s.panel.underlined.Get(g)
    ensures r.node == s.node && r.panel.shown == s.panel.shown
    ensures KeepsToggles(s, r)
  {
    var value := s.panel.shown.Get(f);
    s.(
      bindings := s.bindings.Set(f, Binding(value, clientX)),
      panel := s.panel.(underlined := s.panel.underlined.Set(f, true)),
      slots := DocSlots(Some(f), Some(f)))
  }

  /** `elementDrag` of field f: the pointer moved to clientX. The value grows
      by the horizontal movement since the last event times the field's
      sensitivity, the field shows it to two decimals, and the node gets it. */
  function ElementDrag(s: Inspector, f: Field, clientX: real, unit: UnitKind): (r: Inspector)
    ensures r.bindings.Get(f).lastX == clientX
    ensures r.bindings.Get(f).value == s.bindings.Get(f).value + (clientX - s.bindings.Get(f).lastX) * Sensitivity(f.kind)
    ensures r.panel.shown.Get(f) == Round2(r.bindings.Get(f).value)
    ensures r.node == Apply(s.node, f, r.bindings.Get(f).value, unit)
    ensures forall g :: g != f ==> r.bindings.Get(g) == s.bindings.Get(g) && r.panel.shown.Get(g) == s.panel.shown.Get(g)
    ensures r.slots == s.slots && r.panel.underlined == s.panel.underlined
    ensures KeepsToggles(s, r)
  {
    var b := s.bindings.Get(f);
    var diffX := clientX - b.lastX;
    var value := b.value + diffX * Sensitivity(f.kind);
    s.(
      bindings := s.bindings.Set(f, Binding(value, clientX)),
      panel := s.panel.(shown := s.panel.shown.Set(f, Round2(value))),
      node := Apply(s.node, f, value, unit))
  }

  /** `closeDragElement` of field f: drops f's underline and empties both
      document slots. */
  function CloseDrag(s: Inspector, f: Field): (r: Inspector)
    ensures r.slots == NoDrag
    ensures !r.panel.underlined.Get(f)
    ensures forall g :: g != f ==> r.panel.underlined.Get(g) == s.panel.underlined.Get(g)
    ensures r.node == s.node && r.bindings == s.bindings && r.panel.shown == s.panel.shown
    ensures KeepsToggles(s, r)
  {
    s.(panel := s.panel.(underlined := s.panel.underlined.Set(f, false)), slots := NoDrag)
  }

  /** A `mousemove` on the document: runs the installed move handler, if any. */
  function DocMouseMove(s: Inspector, clientX: real, unit: UnitKind): (r: Inspector)
    ensures s.slots.onMove.None? ==> r == s
    ensures r.slots == s.slots
  {
    match s.slots.onMove
    case None => s
    case Some(f) => ElementDrag(s, f, clientX, unit)
  }

  /** A `mouseup` on the document: runs the installed up handler, if any. */
  function DocMouseUp(s: Inspector): (r: Inspector)
    ensures s.slots.onUp.None? ==> r == s
    ensures s.slots.onUp.Some? ==> r.slots == NoDrag
    ensures r.node == s.node && r.bindings == s.bindings && r.panel.shown == s.panel.shown
  {
    match s.slots.onUp
    case None => s
    case Some(f) => CloseDrag(s, f)
  }

  /** Every event keeps the two document slots in agreement. */
  lemma EventsKeepSlotsAgree(s: Inspector, f: Field, x: real, unit: UnitKind)
    requires SlotsAgree(s)
    ensures SlotsAgree(MouseDown(s, f, x))
    ensures SlotsAgree(DocMouseMove(s, x, unit))
    ensures SlotsAgree(DocMouseUp(s))
  {
  }

  /** A document move edits the dragged field only: no other displayed
      number, no other binding and no other node field changes. */
  lemma MoveTouchesOneField(s: Inspector, clientX: real, unit: UnitKind)
    requires s.slots.onMove.Some?
    ensures var f := s.slots.onMove.value; var r := DocMouseMove(s, clientX, unit);
      && (forall g :: g != f ==> r.panel.shown.Get(g) == s.panel.shown.Get(g))
      && (forall h :: h != Target(f) ==> r.node.t.Get(h) == s.node.t.Get(h))
  {
  }

  /** A sequence of document moves at the given pointer x positions. */
  function Moves(s: Inspector, xs: seq<real>, unit: UnitKind): Inspector
    decreases |xs|
  {
    if |xs| == 0 then s else Moves(DocMouseMove(s, xs[0], unit), xs[1..], unit)
  }

  /** Two consecutive pointer steps of one binding add up to the step
      between their ends. */
  lemma AdvanceTwice(b: Binding, x0: real, x1: real, k: real)
    ensures b.Advance(x0, k).Advance(x1, k) == b.Advance(x1, k)
  {
    assert (x0 - b.lastX) * k + (x1 - x0) * k == (x1 - b.lastX) * k;
  }

  /** One document move during a drag advances the dragged field's binding
      to the new pointer x; the moves after it continue from there. */
  lemma MoveStep(s: Inspector, xs: seq<real>, unit: UnitKind) returns (s1: Inspector)
    requires s.slots.onMove.Some? && |xs| > 0
    ensures var f := s.slots.onMove.value;
      && s1.bindings.Get(f) == s.bindings.Get(f).Advance(xs[0], Sensitivity(f.kind))
      && s1.slots == s.slots
      && Moves(s, xs, unit) == Moves(s1, xs[1..], unit)
  {
    s1 := DocMouseMove(s, xs[0], unit);
  }

  /** Moves in one drag telescope: the dragged value depends only on where
      the pointer ends up, not on the path it took. */
  lemma {:induction false} MovesTelescope(s: Inspector, xs: seq<real>, unit: UnitKind)
    requires s.slots.onMove.Some? && |xs| > 0
    ensures var f := s.slots.onMove.value; var r := Moves(s, xs, unit);
      && r.bindings.Get(f) == s.bindings.Get(f).Advance(xs[|xs| - 1], Sensitivity(f.kind))
      && r.slots == s.slots
    decreases |xs|
  {
    var f := s.slots.onMove.value;
    var s1 := MoveStep(s, xs, unit);
    if |xs| == 1 {
      assert Moves(s1, xs[1..], unit) == s1;
    } else {
      MovesTelescope(s1, xs[1..], unit);
      assert xs[1..][|xs[1..]| - 1] == xs[|xs| - 1];
      AdvanceTwice(s.bindings.Get(f), xs[0], xs[|xs| - 1], Sensitivity(f.kind));
    }
  }

  /** A click on a field without a move in between edits nothing: the node
      and every displayed number stay, and the drag is over. */
  lemma ClickChangesNothing(s: Inspector, f: Field, x: real)
    ensures var r := DocMouseUp(MouseDown(s, f, x));
      && r.node == s.node && r.panel.shown == s.panel.shown && r.slots == NoDrag
  {
  }

  /** Starting a drag on g while f's drag is active leaves only g's handlers
      installed; after the mouse-up no handler remains and a further move is
      a no-op. The stale underline of f is NOT removed: only g's is. */
  lemma SecondDragReplacesFirst(s: Inspector, f: Field, g: Field, x1: real, x2: real, x3: real, unit: UnitKind)
    requires f != g
    ensures var a := MouseDown(s, f, x1); var b := MouseDown(a, g, x2); var c := DocMouseUp(b);
      && b.slots == DocSlots(Some(g), Some(g))
      && c.slots == NoDrag
      && DocMouseMove(c, x3, unit) == c
      && c.panel.underlined.Get(f) && !c.panel.underlined.Get(g)
  {
  }
}

=== FILE: node_ui.dfy ===
/** The per-node inspector panel of js/UI/NodeUI.js with its markup set aside:
    six displayed numbers, the collapse state of the detail section with its
    toggle glyph, and the eye icon. The panels of all nodes are looked up in
    the document by the node's id, modelled as a map from id to panel. */
module NodeUI {
  import opened Optional
  import opened Rounding
  import opened Scene

  /** The axis letter of a field id (`x-…`, `y-…`, `z-…`), in the panel's
      convention. */
  datatype Axis = X | Y | Z

  /** The kind part of a field id (`…-pos-…` or `…-rot-…`). */
  datatype Kind = Pos | Rot

  /** A draggable field: the element ids `x-pos-<id>` … `z-rot-<id>`. */
  datatype Field = Field(axis: Axis, kind: Kind)

  /** One value per draggable field of a panel. */
  datatype PerField<T> = PerField(posX: T, posY: T, posZ: T, rotX: T, rotY: T, rotZ: T)
  {
    function Get(f: Field): T
    {
      match f
      case Field(X, Pos) => posX
      case Field(Y, Pos) => posY
      case Field(Z, Pos) => posZ
      case Field(X, Rot) => rotX
      case Field(Y, Rot) => rotY
      case Field(Z, Rot) => rotZ
    }

    /** These values with the one of field f replaced by v. */
    function Set(f: Field, v: T): (r: PerField<T>)
      ensures r.Get(f) == v
      ensures forall g :: g != f ==> r.Get(g) == Get(g)
    {
      match f
      case Field(X, Pos) => this.(posX := v)
      case Field(Y, Pos) => this.(posY := v)
      case Field(Z, Pos) => this.(posZ := v)
      case Field(X, Rot) => this.(rotX := v)
      case Field(Y, Rot) => this.(rotY := v)
      case Field(Z, Rot) => this.(rotZ := v)
    }
  }

  function Uniform<T>(v: T): PerField<T>
  {
    PerField(v, v, v, v, v, v)
  }

  /** The glyph of the collapse toggle: "bx:minus" while the detail section
      is shown, "bx:plus" while it is hidden. */
  datatype Glyph = Minus | Plus

  /** The eye icon: "akar-icons:eye-open" or "akar-icons:eye-slashed". */
  datatype Eye = EyeOpen | EyeSlashed

  /** The panel as the user sees it. `shown` holds the number inside each
      field's `strong` element; `underlined` its 'underlined' class. */
  datatype Panel = Panel(
    shown: PerField<real>,
    underlined: PerField<bool>,
    detailsHidden: bool,
    toggleIcon: Glyph,
    eyeIcon: Eye)

  /** True when v is a whole number. */
  predicate Whole(v: real)
  {
    v.Floor as real == v
  }

  /** The unrounded number the panel's convention asks for: X is the scene x,
      Y the negated depth, Z the height, each times the unit's scale;
      rotations in degrees. */
  function Exact(t: Transform, f: Field, scale: real): real
  {
    match f
    case Field(X, Pos) => t.xPos * scale
    case Field(Y, Pos) => -t.zPos * scale
    case Field(Z, Pos) => t.yPos * scale
    case Field(X, Rot) => t.xRot * 180.0 / PI
    case Field(Y, Rot) => t.yRot * 180.0 / PI
    case Field(Z, Rot) => t.zRot * 180.0 / PI
  }

  /** The number a field shows when the panel is built: positions to two
      decimals, rotations to whole degrees. */
  function Reading(t: Transform, f: Field, scale: real): (r: real)
    ensures f.kind == Pos ==> OnGrid(r) && Exact(t, f, scale) - 0.005 < r <= Exact(t, f, scale) + 0.005
    ensures f.kind == Rot ==> Whole(r) && Exact(t, f, scale) - 0.5 < r <= Exact(t, f, scale) + 0.5
  {
    if f.kind == Pos then Round2(Exact(t, f, scale)) else Round(Exact(t, f, scale)) as real
  }

  /** The panel `buildUIDiv` creates: every field shows its reading, nothing
      is underlined, the details are expanded with a minus glyph and the eye
      is open. */
  function Build(t: Transform, scale: real): (p: Panel)
    ensures forall f :: p.shown.Get(f) == Reading(t, f, scale)
    ensures forall f :: !p.underlined.Get(f)
    ensures !p.detailsHidden && p.toggleIcon == Minus && p.eyeIcon == EyeOpen
  {
    var r := (f: Field) => Reading(t, f, scale);
    Panel(
      PerField(r(Field(X, Pos)), r(Field(Y, Pos)), r(Field(Z, Pos)),
               r(Field(X, Rot)), r(Field(Y, Rot)), r(Field(Z, Rot))),
      Uniform(false), false, Minus, EyeOpen)
  }

  /** The collapse glyph agrees with the collapse state. */
  predicate ToggleConsistent(p: Panel)
  {
    p.toggleIcon == (if p.detailsHidden then Plus else Minus)
  }

  /** `hideUICam`: flips whether the detail section is hidden and sets the
      glyph from the state it had before the click. */
  function HideUICam(p: Panel): (r: Panel)
    ensures r.detailsHidden == !p.detailsHidden
    ensures ToggleConsistent(r)
    ensures r.shown == p.shown && r.underlined == p.underlined && r.eyeIcon == p.eyeIcon
  {
    var wasHidden := p.detailsHidden;
    p.(detailsHidden := !wasHidden, toggleIcon := if wasHidden then Minus else Plus)
  }

  /** Two clicks on the collapse toggle restore a consistent panel. */
  lemma HideUICamInvolution(p: Panel)
    requires ToggleConsistent(p)
    ensures HideUICam(HideUICam(p)) == p
  {
  }

  /** `changeVisibility(visible)`: mirrors the node's visibility in the eye
      icon and changes nothing else. */
  function ChangeVisibility(p: Panel, visible: bool): (r: Panel)
    ensures r.eyeIcon == EyeOpen <==> visible
    ensures r.shown == p.shown && r.underlined == p.underlined
    ensures r.detailsHidden == p.detailsHidden && r.toggleIcon == p.toggleIcon
  {
    p.(eyeIcon := if visible then EyeOpen else EyeSlashed)
  }

  /** Only the last visibility pushed to the panel matters. */
  lemma ChangeVisibilityLastWins(p: Panel, a: bool, b: bool)
    ensures ChangeVisibility(ChangeVisibility(p, a), b) == ChangeVisibility(p, b)
  {
  }

  /** `updatePosition(x, y, z, currentUnitValue)`: re-renders the three
      position fields after the gizmo moved the node. The Y field shows the
      depth z times the scale WITHOUT the negation the panel was built with;
      the Z field shows the height y. Rotations, underlines and the toggles
      are untouched. */
  function UpdatePosition(p: Panel, x: real, y: real, z: real, scale: real): (r: Panel)
    ensures OnGrid(r.shown.posX) && x * scale - 0.005 < r.shown.posX <= x * scale + 0.005
    ensures OnGrid(r.shown.posY) && z * scale - 0.005 < r.shown.posY <= z * scale + 0.005
    ensures OnGrid(r.shown.posZ) && y * scale - 0.005 < r.shown.posZ <= y * scale + 0.005
    ensures forall f: Field :: f.kind == Rot ==> r.shown.Get(f) == p.shown.Get(f)
    ensures r.underlined == p.underlined && r.eyeIcon == p.eyeIcon
    ensures r.detailsHidden == p.detailsHidden && r.toggleIcon == p.toggleIcon
  {
    p.(shown := p.shown.(
      posX := Round2(x * scale),
      posY := Round2(z * scale),
      posZ := Round2(y * scale)))
  }

  /** A refresh overrides every earlier refresh. */
  lemma UpdatePositionLastWins(p: Panel, a: Transform, b: Transform, s1: real, s2: real)
    ensures UpdatePosition(UpdatePosition(p, a.xPos, a.yPos, a.zPos, s1), b.xPos, b.yPos, b.zPos, s2)
         == UpdatePosition(p, b.xPos, b.yPos, b.zPos, s2)
  {
  }

  /** The panels in the document, keyed by node id. */
  type Registry = map<int, Panel>

  /** The constructor: appends the built panel of a node whose id has no
      panel yet. */
  function Create(reg: Registry, id: int, t: Transform, scale: real): (r: Registry)
    requires id !in reg
    ensures r.Keys == reg.Keys + {id}
    ensures forall f :: r[id].shown.Get(f) == Reading(t, f, scale)
    ensures forall k :: k in reg ==> r[k] == reg[k]
  {
    reg[id := Build(t, scale)]
  }

  /** `dispose`: removes the node's panel; a second call would dereference
      a missing element, so the panel must exist. */
  function Dispose(reg: Registry, id: int): (r: Registry)
    requires id in reg
    ensures r.Keys == reg.Keys - {id}
    ensures forall k :: k in r ==> r[k] == reg[k]
  {
    reg - {id}
  }

  /** `updatePosition` addressed by node id: it fails (the element lookup
      yields null) when the node has no panel, and otherwise refreshes that
      panel alone. */
  function UpdatePositionOf(reg: Registry, id: int, x: real, y: real, z: real, scale: real): (r: Option<Registry>)
    ensures r.None? <==> id !in reg
    ensures r.Some? ==> r.value.Keys == reg.Keys
    ensures r.Some? ==> r.value[id] == UpdatePosition(reg[id], x, y, z, scale)
    ensures r.Some? ==> forall k :: k in reg && k != id ==> r.value[k] == reg[k]
  {
    if id in reg then Some(reg[id := UpdatePosition(reg[id], x, y, z, scale)]) else None
  }

  /** After `dispose` no refresh can bring the panel back. */
  lemma NoUpdateAfterDispose(reg: Registry, id: int, x: real, y: real, z: real, scale: real)
    requires id in reg
    ensures UpdatePositionOf(Dispose(reg, id), id, x, y, z, scale).None?
  {
  }
}

=== FILE: optional.dfy ===
/** An optional value, for the nullable references of the source (a document
    handler slot, the object a gizmo holds, an element looked up by id). */
module Optional {

  datatype Option<+T> = None | Some(value: T)
}

=== FILE: round_trip.dfy ===
/** What a user gets back when they press on a panel field and then move the
    pointer with no horizontal movement (a zero-length drag): the node field
    is rewritten from the number the field displays. A press released without
    any move writes nothing (`Drag.ClickChangesNothing`). For X and Z this
    restores the node up to the display rounding; for the Y position it does
    not, because the panel is built showing the negated depth
    (js/UI/NodeUI.js:38) while a drag writes the displayed number into the
    depth unnegated (js/UI/NodeUI.js:151) and `updatePosition` shows the depth
    unnegated too (js/UI/NodeUI.js:249). */
module RoundTrip {
  import opened Data
  import opened Optional
  import opened Rounding
  import opened Scene
  import opened NodeUI
  import opened Drag

  /** Press on field f at x and move the pointer by nothing. */
  function ZeroDrag(s: Inspector, f: Field, x: real, unit: UnitKind): Inspector
  {
    DocMouseMove(MouseDown(s, f, x), x, unit)
  }

  /** A zero-length drag writes the displayed number, turned back into scene
      units, into the field's node field and leaves the other five alone. */
  lemma ZeroDragWritesShown(s: Inspector, f: Field, x: real, unit: UnitKind)
    ensures var r := ZeroDrag(s, f, x, unit);
      && r.node.t.Get(Target(f)) == ToScene(f, s.panel.shown.Get(f), unit)
      && (forall g :: g != Target(f) ==> r.node.t.Get(g) == s.node.t.Get(g))
      && r.panel.shown.Get(f) == Round2(s.panel.shown.Get(f))
  {
    var v := s.panel.shown.Get(f);
    var m := MouseDown(s, f, x);
    assert m.slots.onMove == Some(f);
    assert m.bindings.Get(f) == Binding(v, x);
    var r := ElementDrag(m, f, x, unit);
    assert ZeroDrag(s, f, x, unit) == r;
    assert (x - x) * Sensitivity(f.kind) == 0.0;
    assert r.bindings.Get(f).value == v;
    assert r.node == Apply(s.node, f, v, unit);
  }

  /** Positive scales cancel. */
  lemma CancelScale(a: real, b: real, scale: real)
    requires scale > 0.0 && a * scale == b * scale
    ensures a == b
  {
    assert (a - b) * scale == 0.0;
  }

  /** A scaled scene value written back through a position field is the
      scene value again. */
  lemma ScaledReadBack(f: Field, w: real, unit: UnitKind)
    requires f.kind == Pos
    ensures ToScene(f, w * Scale(unit), unit) == w
  {
    CancelScale(ToScene(f, w * Scale(unit), unit), w, Scale(unit));
  }

  /** On a freshly built panel, a zero-length drag on any field writes the
      field's build-time reading, turned back into scene units, into the
      node field it targets, and leaves the other five alone. */
  lemma BuildThenZeroDrag(n: Node, unit: UnitKind, slots: DocSlots, f: Field, x: real)
    ensures var r := ZeroDrag(Fresh(n, unit, slots), f, x, unit);
      && r.node.t.Get(Target(f)) == ToScene(f, Reading(n.t, f, Scale(unit)), unit)
      && (forall g :: g != Target(f) ==> r.node.t.Get(g) == n.t.Get(g))
  {
    ZeroDragWritesShown(Fresh(n, unit, slots), f, x, unit);
  }

  /** A position reading turned back into scene units lies within the
      display rounding of the unrounded display value. */
  lemma PositionReadBackBounds(t: Transform, f: Field, unit: UnitKind)
    requires f.kind == Pos
    ensures var sc := Scale(unit); var back := ToScene(f, Reading(t, f, sc), unit);
      Exact(t, f, sc) - 0.005 < back * sc <= Exact(t, f, sc) + 0.005
  {
  }

  /** The X reading turned back into scene units is the scene x itself
      whenever the scaled x has two decimals. */
  lemma ReadBackX(t: Transform, unit: UnitKind)
    requires OnGrid(t.xPos * Scale(unit))
    ensures ToScene(Field(X, Pos), Reading(t, Field(X, Pos), Scale(unit)), unit) == t.xPos
  {
    var sc := Scale(unit);
    var e := t.xPos * sc;
    assert OnGrid(e) by { assert e == t.xPos * Scale(unit); }
    var back := ToScene(Field(X, Pos), Reading(t, Field(X, Pos), sc), unit);
    assert Reading(t, Field(X, Pos), sc) == e by {
      assert Exact(t, Field(X, Pos), sc) == e;
      Round2Fixes(e);
    }
    CancelScale(back, t.xPos, sc);
  }

  /** The Z reading turned back into scene units is the scene height itself
      whenever the scaled height has two decimals. */
  lemma ReadBackZ(t: Transform, unit: UnitKind)
    requires OnGrid(t.yPos * Scale(unit))
    ensures ToScene(Field(Z, Pos), Reading(t, Field(Z, Pos), Scale(unit)), unit) == t.yPos
  {
    var sc := Scale(unit);
    var e := t.yPos * sc;
    assert OnGrid(e) by { assert e == t.yPos * Scale(unit); }
    var back := ToScene(Field(Z, Pos), Reading(t, Field(Z, Pos), sc), unit);
    assert Reading(t, Field(Z, Pos), sc) == e by {
      assert Exact(t, Field(Z, Pos), sc) == e;
      Round2Fixes(e);
    }
    CancelScale(back, t.yPos, sc);
  }

  /** The Y reading turned back into scene units is the NEGATED depth
      whenever the scaled depth has two decimals: it never restores a depth
      other than zero. */
  lemma ReadBackYNegates(t: Transform, unit: UnitKind)
    requires OnGrid(t.zPos * Scale(unit))
    ensures ToScene(Field(Y, Pos), Reading(t, Field(Y, Pos), Scale(unit)), unit) == -t.zPos
  {
    var sc := Scale(unit);
    var e := t.zPos * sc;
    assert OnGrid(e) by { assert e == t.zPos * Scale(unit); }
    var back := ToScene(Field(Y, Pos), Reading(t, Field(Y, Pos), sc), unit);
    assert Reading(t, Field(Y, Pos), sc) == -e by {
      assert Exact(t, Field(Y, Pos), sc) == -e;
      Round2Negate(e);
      Round2Fixes(e);
    }
    assert back * sc == (-t.zPos) * sc;
    CancelScale(back, -t.zPos, sc);
  }

  /** A press followed by a move with no horizontal movement on the X field
      of a freshly built panel leaves the whole transform of a node whose
      scaled x has two decimals unchanged: x-pos writes x and nothing else. */
  lemma BuildRoundTripX(n: Node, unit: UnitKind, slots: DocSlots, x: real)
    requires OnGrid(n.t.xPos * Scale(unit))
    ensures ZeroDrag(Fresh(n, unit, slots), Field(X, Pos), x, unit).node.t == n.t
  {
    BuildThenZeroDrag(n, unit, slots, Field(X, Pos), x);
    ReadBackX(n.t, unit);
  }

  /** A press followed by a move with no horizontal movement on the Z field
      of a freshly built panel leaves the whole transform of a node whose
      scaled height has two decimals unchanged: z-pos writes the height and
      nothing else. */
  lemma BuildRoundTripZ(n: Node, unit: UnitKind, slots: DocSlots, x: real)
    requires OnGrid(n.t.yPos * Scale(unit))
    ensures ZeroDrag(Fresh(n, unit, slots), Field(Z, Pos), x, unit).node.t == n.t
  {
    BuildThenZeroDrag(n, unit, slots, Field(Z, Pos), x);
    ReadBackZ(n.t, unit);
  }

  /** A press followed by a move with no horizontal movement on the Y field
      of a freshly built panel moves a node with a two-decimal depth to the
      mirrored depth. */
  lemma BuildRoundTripYNegates(n: Node, unit: UnitKind, slots: DocSlots, x: real)
    requires OnGrid(n.t.zPos * Scale(unit))
    ensures ZeroDrag(Fresh(n, unit, slots), Field(Y, Pos), x, unit).node.t.zPos == -n.t.zPos
  {
    BuildThenZeroDrag(n, unit, slots, Field(Y, Pos), x);
    ReadBackYNegates(n.t, unit);
  }

  /** So a node half a metre deep comes back from a zero-length drag on Y
      half a metre on the other side: the round trip is broken. */
  lemma BuildRoundTripYBroken(slots: DocSlots, x: real)
    ensures var n := Node(Transform(0.0, 0.0, 0.5, 0.0, 0.0, 0.0), Vec3(0.0, 0.0, 0.5), Vec3(0.0, 0.0, 0.5), Vec3(0.0, 0.0, 0.0));
      ZeroDrag(Fresh(n, Meters, slots), Field(Y, Pos), x, Meters).node.t.zPos == -0.5
  {
    var n := Node(Transform(0.0, 0.0, 0.5, 0.0, 0.0, 0.0), Vec3(0.0, 0.0, 0.5), Vec3(0.0, 0.0, 0.5), Vec3(0.0, 0.0, 0.0));
    BuildThenZeroDrag(n, Meters, slots, Field(Y, Pos), x);
    assert Round(-50.0) == -50;
  }

  /** A refresh shows a two-decimal scaled depth exactly, unnegated. */
  lemma UpdateShowsDepth(p: Panel, x: real, y: real, z: real, scale: real)
    requires OnGrid(z * scale)
    ensures UpdatePosition(p, x, y, z, scale).shown.posY == z * scale
  {
    assert UpdatePosition(p, x, y, z, scale).shown.posY == Round2(z * scale);
    Round2Fixes(z * scale);
  }

  /** The built panel shows a two-decimal scaled depth exactly, negated. */
  lemma BuildShowsNegatedDepth(t: Transform, scale: real)
    requires OnGrid(t.zPos * scale)
    ensures Build(t, scale).shown.posY == -(t.zPos * scale)
  {
    var e := t.zPos * scale;
    assert Build(t, scale).shown.Get(Field(Y, Pos)) == Reading(t, Field(Y, Pos), scale);
    assert Exact(t, Field(Y, Pos), scale) == -e;
    Round2Negate(e);
    Round2Fixes(e);
  }

  /** A zero-length drag on a Y field that shows the scaled depth z keeps
      the depth at z. */
  lemma ZeroDragYKeepsShownDepth(u: Inspector, unit: UnitKind, x: real, z: real)
    requires u.panel.shown.posY == z * Scale(unit)
    ensures ZeroDrag(u, Field(Y, Pos), x, unit).node.t.zPos == z
  {
    assert u.panel.shown.Get(Field(Y, Pos)) == z * Scale(unit);
    ZeroDragWritesShown(u, Field(Y, Pos), x, unit);
    ScaledReadBack(Field(Y, Pos), z, unit);
  }

  /** After the gizmo refreshed the panel with `updatePosition`, the Y field
      shows the depth unnegated, so a press followed by a move with no
      horizontal movement on it now keeps a two-decimal depth where the built
      panel mirrored it. */
  lemma UpdateThenZeroDragY(s: Inspector, unit: UnitKind, x: real)
    requires OnGrid(s.node.t.zPos * Scale(unit))
    ensures var t := s.node.t;
      var u := s.(panel := UpdatePosition(s.panel, t.xPos, t.yPos, t.zPos, Scale(unit)));
      ZeroDrag(u, Field(Y, Pos), x, unit).node.t.zPos == t.zPos
  {
    UpdateShowsDepth(s.panel, s.node.t.xPos, s.node.t.yPos, s.node.t.zPos, Scale(unit));
    ZeroDragYKeepsShownDepth(
      s.(panel := UpdatePosition(s.panel, s.node.t.xPos, s.node.t.yPos, s.node.t.zPos, Scale(unit))),
      unit, x, s.node.t.zPos);
  }

  /** Rotation fields show whole degrees without offset or sign change, so
      turned back into radians a rotation reading restores the rotation to
      within half a degree, exactly when it was a whole number of degrees. */
  lemma RotationReadBack(t: Transform, f: Field, unit: UnitKind)
    requires f.kind == Rot
    ensures var v := t.Get(Target(f)); var back := ToScene(f, Reading(t, f, Scale(unit)), unit);
      && v * 180.0 / PI - 0.5 < back * 180.0 / PI <= v * 180.0 / PI + 0.5
      && (back == v <==> Whole(v * 180.0 / PI))
  {
    var v := t.Get(Target(f));
    var deg := v * 180.0 / PI;
    var back := ToScene(f, Reading(t, f, Scale(unit)), unit);
    assert Exact(t, f, Scale(unit)) == deg;
    assert back * 180.0 / PI == Round(deg) as real;
    if Whole(deg) {
      RoundUnique(deg, deg.Floor);
    }
  }

  /** A worked example: a node at x 1, depth 0.5, height 2 in metres shows
      X 1, Y -0.5, Z 2; dragging Y 200 pixels to the right shows Y 1.5 and
      sets the depth to +1.5 (the displayed value, unnegated). */
  lemma DragYScenario(slots: DocSlots, x: real)
    ensures var n := Node(Transform(1.0, 2.0, 0.5, 0.0, 0.0, 0.0), Vec3(1.0, 2.0, 0.5), Vec3(1.0, 2.0, 0.5), Vec3(0.0, 0.0, 0.0));
      var s := Fresh(n, Meters, slots);
      var r := DocMouseMove(MouseDown(s, Field(Y, Pos), x), x + 200.0, Meters);
      && s.panel.shown.posX == 1.0 && s.panel.shown.posY == -0.5 && s.panel.shown.posZ == 2.0
      && r.panel.shown.posY == 1.5
      && r.node.t.zPos == 1.5
      && r.node.meshPos == Vec3(1.0, 2.0, 1.5)
  {
    var f := Field(Y, Pos);
    var n := Node(Transform(1.0, 2.0, 0.5, 0.0, 0.0, 0.0), Vec3(1.0, 2.0, 0.5), Vec3(1.0, 2.0, 0.5), Vec3(0.0, 0.0, 0.0));
    var s := Fresh(n, Meters, slots);
    assert s.panel.shown.posX == 1.0 by {
      assert s.panel.shown.Get(Field(X, Pos)) == Reading(n.t, Field(X, Pos), 1.0);
      assert Round(100.0) == 100;
    }
    assert s.panel.shown.posZ == 2.0 by {
      assert s.panel.shown.Get(Field(Z, Pos)) == Reading(n.t, Field(Z, Pos), 1.0);
      assert Round(200.0) == 200;
    }
    assert s.panel.shown.posY == -0.5 by {
      assert s.panel.shown.Get(f) == Reading(n.t, f, 1.0);
      assert Round(-50.0) == -50;
    }
    var m := MouseDown(s, f, x);
    assert m.bindings.Get(f) == Binding(-0.5, x);
    assert m.slots.onMove == Some(f);
    var r := DocMouseMove(m, x + 200.0, Meters);
    assert r == ElementDrag(m, f, x + 200.0, Meters);
    assert r.bindings.Get(f).value == 1.5;
    assert Round(150.0) == 150;
    assert r.node.t.Get(ZPos) == ToScene(f, 1.5, Meters);
  }

  /** Switching the display unit from metres to feet only changes what a
      refresh shows: a height of 2 reads 2 in metres and 6.56 in feet. */
  lemma UnitChangeScenario(p: Panel)
    ensures UpdatePosition(p, 0.0, 2.0, 0.0, Scale(Meters)).shown.posZ == 2.0
    ensures UpdatePosition(p, 0.0, 2.0, 0.0, Scale(Feets)).shown.posZ == 6.56
  {
    assert Round(200.0) == 200;
    assert Round(656.168) == 656;
  }
}

=== FILE: rounding.dfy ===
/** The number formatting of the inspector panel: JavaScript's `Math.round`
    and the two-decimal rounding `Math.round(v * 100) / 100` built on it. */
module Rounding {

  /** `Math.round`: the nearest integer, a half rounded toward +infinity. */
  function Round(x: real): (n: int)
    ensures n as real - 0.5 <= x < n as real + 0.5
  {
    (x + 0.5).Floor
  }

  /** `Round` is the only integer within half a unit (ties upward) of x. */
  lemma RoundUnique(x: real, n: int)
    requires n as real - 0.5 <= x < n as real + 0.5
    ensures Round(x) == n
  {
    var m := Round(x);
    assert m as real - 0.5 <= x < m as real + 0.5;
    assert -1.0 < (m - n) as real < 1.0;
  }

  /** A number with at most two decimals: what `Round2` produces. */
  predicate OnGrid(v: real)
  {
    (v * 100.0).Floor as real == v * 100.0
  }

  /** Two-decimal rounding, `Math.round(v * 100) / 100`: the result is on the
      two-decimal grid and at most half a hundredth away from v. */
  function Round2(v: real): (r: real)
    ensures OnGrid(r)
    ensures v - 0.005 < r <= v + 0.005
  {
    var n := Round(v * 100.0);
    assert (n as real / 100.0) * 100.0 == n as real;
    n as real / 100.0
  }

  /** Rounding leaves a number that already has two decimals alone. */
  lemma Round2Fixes(v: real)
    requires OnGrid(v)
    ensures Round2(v) == v
  {
    var n := (v * 100.0).Floor;
    RoundUnique(v * 100.0, n);
  }

  /** Re-rounding a displayed value changes nothing. */
  lemma Round2Idempotent(v: real)
    ensures Round2(Round2(v)) == Round2(v)
  {
    Round2Fixes(Round2(v));
  }

  /** On the grid, rounding commutes with negation (off the grid it does not:
      halves round upward). */
  lemma Round2Negate(v: real)
    requires OnGrid(v)
    ensures OnGrid(-v)
    ensures Round2(-v) == -Round2(v)
  {
    var n := (v * 100.0).Floor;
    assert (-v) * 100.0 == (-n) as real;
    assert ((-v) * 100.0).Floor == -n;
    Round2Fixes(v);
    Round2Fixes(-v);
  }
}

=== FILE: scene.dfy ===
/** The scene-side state of one trackable node as the inspector panel sees it:
    the six transform fields of the node (scene axes, radians), the position of
    its renderable mesh, and the position and per-axis rotation of its
    manipulable proxy (`cameraPerspective`). */
module Scene {

  /** `Math.PI`. */
  const PI: real := 3.141592653589793

  /** `Node.DEFAULT_NODE_ROTATION_X`, the mounting pitch added to the proxy's
      x rotation. Its value is set in js/scene/objects/sensors/Node.js, which
      is not part of this model, so it is left abstract. */
  const DefaultNodeRotationX: real

  datatype Vec3 = Vec3(x: real, y: real, z: real)

  /** The six transform fields of a node, in the scene's own axes: y is the
      height and z the depth. */
  datatype SceneField = XPos | YPos | ZPos | XRot | YRot | ZRot

  datatype Transform = Transform(
    xPos: real, yPos: real, zPos: real,
    xRot: real, yRot: real, zRot: real)
  {
    function Get(f: SceneField): real
    {
      match f
      case XPos => xPos
      case YPos => yPos
      case ZPos => zPos
      case XRot => xRot
      case YRot => yRot
      case ZRot => zRot
    }

    /** This transform with field f set to v and the other five kept. */
    function With(f: SceneField, v: real): (t: Transform)
      ensures t.Get(f) == v
      ensures forall g :: g != f ==> t.Get(g) == Get(g)
    {
      match f
      case XPos => this.(xPos := v)
      case YPos => this.(yPos := v)
      case ZPos => this.(zPos := v)
      case XRot => this.(xRot := v)
      case YRot => this.(yRot := v)
      case ZRot => this.(zRot := v)
    }

    function Position(): Vec3
    {
      Vec3(xPos, yPos, zPos)
    }
  }

  /** A node with the scene objects the panel keeps in step with it. */
  datatype Node = Node(t: Transform, meshPos: Vec3, proxyPos: Vec3, proxyRot: Vec3)

  /** The proxy rotation that corresponds to a transform: the mounting pitch
      is added on x, the y rotation is negated, z is copied. */
  function ProxyRotation(t: Transform): Vec3
  {
    Vec3(t.xRot + DefaultNodeRotationX, -t.yRot, t.zRot)
  }

  /** The mesh and the proxy both sit at the node's position and the proxy is
      turned as the node's rotation fields say. */
  predicate Synced(n: Node)
  {
    && n.meshPos == n.t.Position()
    && n.proxyPos == n.t.Position()
    && n.proxyRot == ProxyRotation(n.t)
  }

  /** The scene axis a field lies along or turns about: 0 for x, 1 for y,
      2 for z. */
  function AxisIndex(f: SceneField): nat
  {
    match f
    case XPos | XRot => 0
    case YPos | YRot => 1
    case ZPos | ZRot => 2
  }

  /** The coordinate of a vector along the axis of a field. */
  function AxisOf(v: Vec3, f: SceneField): real
  {
    match AxisIndex(f)
    case 0 => v.x
    case 1 => v.y
    case _ => v.z
  }
}
